=== FILE: README.md ===
# zkp-aggregator: a Dafny model of the epoch store and its event loop

The zkp-aggregator is a Kinode process. Peer nodes submit zero-knowledge proofs to it. It
files each proof in the current **epoch** under the node id the submission names
(lib.rs:222-226); the code does not check that id against the sender. A timer set once at
start-up fires five minutes later. If a WebSocket channel is open at that moment, the process
sends the epoch's proofs (the *batch*) over it to an external aggregation service and moves
on to the next epoch; otherwise it does nothing (lib.rs:75-78), and no scheduled batch goes
out in that start-up. The timer is not set again, so later batches go out only when an
operator sends the `request_aggregate_proofs` command from the terminal. The service answers with one
aggregated proof. The operator can also send the aggregated proof of the current epoch to an
on-chain verifier.

This project models the two parts of that process that decide what is stored and what is
sent:

- **the epoch store** (`zkp-aggregator/src/structs.rs`), module `Epochs`. The state is a
  counter `currentEpoch` and a history mapping epoch numbers to an `EpochState`. An
  `EpochState` holds at most one proof per node id, plus an optional aggregated proof.
  The module has the default state, `epoch_next`, first-write-wins `add_proof`,
  `set_aggregated_proof` and the lookups.
- **the event handlers** (`zkp-aggregator/src/lib.rs`), module `Dispatch`:
  - `handle_message` routes each message by its source;
  - `handle_timer` pushes the batch, then advances the epoch;
  - `handle_http_server_request` covers WebSocket open/close and the pushes coming back
    from the aggregation service (an aggregated proof, or dummy proofs);
  - `handle_kinode_messages` takes peer submissions;
  - `handle_terminal_debug` takes operator commands.

  Module `Runs` covers the event loop of `init`.

`Wrappers` holds `Option` and `Decoded` (a payload that decoded to a value, or failed to).
`Messages` holds the values that cross the process boundary.

Proofs and verifying keys are opaque type parameters `P` and `K`. Each handler is a
transition `World -> (World, pushes, Outcome)`:
- `World` is the store together with the open channel.
- The pushes are the WebSocket pushes and chain calls the handler makes, in order.
- `Outcome` is the handler's `anyhow::Result<()>`.

The loop only logs an error and carries on, so an error never stops a run.

A Rust `HashMap` iterates in an unspecified order. The id list and the batch built from it
therefore come from methods that may pick any enumeration. Their contracts hold for every
order.

Main properties proved:
- `add_proof` is first-write-wins. A second submission under the same id keeps the first
  proof.
- `epoch_next` maps the next epoch number to a fresh empty epoch, replacing any entry
  already there, and leaves every other entry alone. On a well-formed store this adds exactly
  one epoch.
- No message moves the epoch by more than one, and no message changes an epoch that is
  already closed.
- Consider a process started without a saved state. Throughout its lifetime the
  invariant `Consistent` holds (`Runs.RunFromBoot`). It says the history is exactly
  `0..currentEpoch` and the current epoch has no aggregated proof.
- Consequently, within such a lifetime `send_to_chain` never calls the chain. It reads
  the aggregated proof of the *current* epoch, and the only writer of an aggregated proof
  advances the epoch right after writing it.
- A restarted process is different. `set_aggregated_proof` saves the store
  (structs.rs:118), but the `epoch_next` that follows it (lib.rs:155) does not. The saved
  snapshot can therefore hold an aggregated proof on its current epoch, and after a restart
  from it `send_to_chain` does call the chain (`Runs.ResumeAfterAggregation`).
- On the timer path, the batch of epoch `c` is pushed and the epoch moves to `c + 1`. The
  aggregated proof that comes back is then filed on `c + 1`, and epoch `c` never receives
  one (`Runs.TimerThenRun`, `Runs.TimerRound`). The operator path (`request_aggregate_proofs`
  without the timer) files it on the batch's own epoch (`Runs.OperatorRound`).

Further facts about the code that the model keeps:
- `add_proof` returns `true` for a duplicate id as well, although its flag is named
  `is_new` (structs.rs:91-97). The flag only says whether the current epoch exists.
- `set_aggregated_proof` takes no epoch. The aggregated proof is filed on whichever epoch is
  current when it arrives (lib.rs:154-155), as described above.
- Every dummy proof is filed under the one id `fake.dev`. By first-write-wins, at most the
  first dummy proof of a list is ever stored (`Dispatch.AddProofsIsFirstAddProof`).

## Model

| member | source | states |
|---|---|---|
| `Epochs.EmptyEpoch` | zkp-aggregator/src/structs.rs:33-40 | no proofs and no aggregated proof |
| `Epochs.DefaultState` | zkp-aggregator/src/structs.rs:48-59 | the initial store has epoch 0 current and a history holding exactly epoch 0, empty, so the history is `0..current` |
| `Epochs.EpochNext` | zkp-aggregator/src/structs.rs:75-88 | the counter goes up by one; the new number maps to a fresh empty epoch, replacing any entry there; every other entry is kept; the history stays `0..current` |
| `Epochs.AddProof` | zkp-aggregator/src/structs.rs:90-101 | the flag is true iff the current epoch exists, also for a duplicate id; with it, the proof map follows first-write-wins (an id already present keeps its proof) and the aggregated proof and other epochs are kept; without it nothing changes |
| `Epochs.GetProofsForKinode` | zkp-aggregator/src/structs.rs:103-107 | present iff the current epoch exists and has the id, and then it is that id's stored proof |
| `Epochs.GetAllKinodeIds` | zkp-aggregator/src/structs.rs:109-113 | lists every id of the current epoch exactly once, in some order; empty when the current epoch is absent |
| `Epochs.SetAggregatedProof` | zkp-aggregator/src/structs.rs:115-120 | the current epoch's aggregated proof becomes `proof` and its proofs are kept; an absent current epoch leaves everything unchanged |
| `Epochs.GetAggregatedProof` | zkp-aggregator/src/structs.rs:122-126 | present iff the current epoch exists and holds an aggregated proof, and then it is that proof |
| `Epochs.GetEpochState` | zkp-aggregator/src/structs.rs:128-130 | present iff the epoch is in the history, and then it is that entry |
| `Epochs.CurrentEpochState` | zkp-aggregator/src/structs.rs:132-135 | present iff the current epoch is in the history, and then it is that entry |
| `Epochs.FilterMapProofs` | zkp-aggregator/src/lib.rs:80-85 | never longer than the id list and empty without a current epoch; when every id has a proof, nothing is skipped and the i-th element is the i-th id's proof |
| `Epochs.CurrentBatch` | zkp-aggregator/src/lib.rs:80-85 | the batch is the current epoch's proof map listed once per id in some order (one entry per id, each the stored proof); empty without a current epoch |
| `Epochs.EpochNextNFromDefault` | zkp-aggregator/src/structs.rs:48-88 | `n` epoch transitions from the default store give current epoch `n` and a well-formed history of exactly `n + 1` empty epochs `0..n` |
| `Epochs.AddProofOfPresentId` | zkp-aggregator/src/structs.rs:94 | offering a proof under an id that already has one changes nothing (the `or_insert` keeps the first) |
| `Epochs.DuplicateSubmissionKeepsFirst` | zkp-aggregator/src/structs.rs:90-101 | two submissions under one id both report true, the second changes nothing, and the stored proof is the first one offered |
| `Epochs.AddThenGetProof` | zkp-aggregator/src/structs.rs:90-107 | after `add_proof`, the lookup for that id returns its earlier proof if it had one, else the new one |
| `Epochs.SetThenGetAggregatedProof` | zkp-aggregator/src/structs.rs:115-126 | after setting an aggregated proof on an existing current epoch, the getter returns it |
| `Epochs.AddProofKeepsClosedEpochs` | zkp-aggregator/src/structs.rs:138-140 | `add_proof` only writes through the current epoch's entry, so every closed epoch is unchanged |
| `Dispatch.HandleTimer` | zkp-aggregator/src/lib.rs:62-103 | no context: nothing happens; undecodable context: error, nothing changes (even without a channel); no channel: nothing happens; otherwise exactly one binary push of the current batch on the channel, then the epoch advances |
| `Dispatch.EnsureCurrentEpoch` | zkp-aggregator/src/lib.rs:161-166 | the current epoch exists afterwards, created empty only if it was missing; nothing else changes |
| `Dispatch.AddProofs` | zkp-aggregator/src/lib.rs:167-170 | adding a list under one id keeps the epoch, keys and aggregated proof; an empty list changes nothing, otherwise the result is first-write-wins with the list's first proof |
| `Dispatch.AddProofsOfPresentId` | zkp-aggregator/src/lib.rs:167-170 | once the id holds a proof, any further list under it changes nothing |
| `Dispatch.AddProofsIsFirstAddProof` | zkp-aggregator/src/lib.rs:159-171 | a dummy-proof list stores exactly what its first element alone would |
| `Dispatch.HandleWsPush` | zkp-aggregator/src/lib.rs:138-180 | missing or undecodable blob: nothing changes; aggregated proof: filed on the epoch current on arrival, then a fresh epoch follows; dummy proofs: filed under `fake.dev` in the current epoch, created if missing; the invariant and closed epochs are kept |
| `Dispatch.HandleHttpServerRequest` | zkp-aggregator/src/lib.rs:117-184 | undecodable request: error, nothing changes; WebSocket open: records its channel; close: forgets the channel; push: applies the blob; any other request: no-op |
| `Dispatch.HandleTerminalDebug` | zkp-aggregator/src/lib.rs:236-315 | never changes store or channel; non-UTF-8: error; `request_aggregate_proofs`: pushes the current batch if a channel is open; `insert_dummy_proofs`: text push of `insert_proofs_pls`; `send_to_chain`: nothing without an aggregated proof, otherwise a chain call with it, and an error without a caller or on chain failure; other commands: no-op; no chain call in a consistent state |
| `Dispatch.HandleKinodeMessages` | zkp-aggregator/src/lib.rs:208-235 | terminal package: the terminal command's effect; otherwise a decodable submission is exactly one `add_proof` under the id the body names, anything else an error that changes nothing |
| `Dispatch.HandleRequest` | zkp-aggregator/src/lib.rs:331-348 | the HTTP server of another node is ignored; the local one is handled as an HTTP server request; other sources go to the peer/terminal handler; only the local HTTP server changes the channel |
| `Dispatch.HandleResponse` | zkp-aggregator/src/lib.rs:326-330 | a response from `timer:distro:sys` is the timer's effect, any other response is ignored; the channel is kept; no chain call |
| `Dispatch.HandleMessage` | zkp-aggregator/src/lib.rs:317-351 | a failed receive is an error; responses and requests are routed as above; each message moves the epoch by 0 or 1, keeps closed epochs and the invariant; no chain call from a consistent state |
| `Runs.Boot` | zkp-aggregator/src/lib.rs:360-367 | starts from the loaded state if there is one, else the default, which satisfies the invariant; no channel is open |
| `Runs.Run` | zkp-aggregator/src/lib.rs:372-385 | over any message sequence: the epoch rises by at most one per message, closed epochs are untouched, the invariant is kept, and from a consistent state no chain call is ever made |
| `Runs.RunFromBoot` | zkp-aggregator/src/lib.rs:353-385 | from a fresh start, every run ends consistent, at an epoch at most its length, without any chain call |
| `Runs.ResumeAfterAggregation` | zkp-aggregator/src/lib.rs:299-308 | a process resumed from the snapshot saved by `set_aggregated_proof` (before `epoch_next`, which does not save) is not consistent, and `send_to_chain` calls the chain with the saved proof |
| `Runs.TimerThenRun` | zkp-aggregator/src/lib.rs:150-155 | after the timer pushes epoch `c`'s batch, no later message changes epoch `c`: it keeps the pushed proofs and never gets an aggregated proof |
| `Runs.TimerRound` | zkp-aggregator/src/lib.rs:74-155 | open, two submissions, timer, aggregated proof back: the batch pushed is the two proofs (either order), epoch 0 keeps them without an aggregated proof, the result lands on epoch 1, and epoch 2 is current |
| `Runs.OperatorRound` | zkp-aggregator/src/lib.rs:277-308 | open, one submission, `request_aggregate_proofs`, aggregated proof back, `send_to_chain`: the result lands on epoch 0 with its batch, epoch 1 becomes current, and `send_to_chain` calls nothing |

## Left out

- `zkp-aggregator/src/caller.rs` and `zkp-aggregator/src/contract_caller.rs` (building,
  signing and sending the Ethereum transaction) are not part of this model. They are
  foreign calls. A chain call is recorded as a `ChainCall` push, and its success is the
  `chainAccepts` parameter.
- `zkp-aggregator-ext` (the WebSocket client that performs the aggregation) is a separate
  process and is not part of this model. Its messages are inputs.
- The chain caller is always present in the source. `init` builds it with
  `Caller::new(...).unwrap()` (lib.rs:362-365), which panics instead of leaving it absent.
  The `Host.ethCallerPresent` flag exists only so that the model covers the `else` branch of
  `send_to_chain` (lib.rs:112-113), which the source never reaches. The `lazy_static`
  configuration read from `.env` is not modelled.
- Byte-level decoding is not modelled: `serde_json`, UTF-8 and the wire formats of
  `WsMessage` and `HttpServerRequest`. A request body carries its decoded views
  (HTTP-server request, UTF-8 text, proof submission), each either a value or a decode
  failure. The handler picks the view its source calls for.
- `get_blob` is not a separate call. The blob, or its absence, is part of the `WebSocketPush` request.
- The failure of `serde_json::to_vec` on the batch (lib.rs:86 and lib.rs:289) is not
  modelled. The batch is always sent.
- `State::save`, `State::load` and `set_state` are left out. Persisting has no effect on
  the in-memory state, and a failed save is ignored by `add_proof`. Loading is `Boot`'s
  optional saved state, which may be any store. `epoch_next` does not persist, so a restart
  can resume at an epoch that already holds its aggregated proof. The invariant and the
  no-chain-call result cover only a lifetime started without a saved state.
- `setup_timer` (the one-shot five-minute timer set once at start-up, lib.rs:358) is left
  out. The timer firing is an inbound response. The model accepts any number of timer
  responses, although the source can receive at most one per start-up. Every property of
  the model holds for any number.
- HTTP server binding is left out.
- Logging (`kiprintln`, `info`) is left out, and with it the output of `print_state`,
  `current_epoch`, `list_epochs` and `print_epoch:<n>`. These commands change nothing and
  are modelled as no-ops.
- Epoch numbers are `u64` in the source and `nat` here. The `+= 1` in `epoch_next` cannot
  overflow in any realistic run, so wrap-around and panic are not modelled.
- Fields of a message that no handler reads (a response's body and metadata, the
  `WebSocketOpen` path) are not modelled.
- Epochs.FilterMapProofs: when some id has no proof, the contract bounds the length but does
  not say which proofs remain or in what order. Every caller passes ids taken from the
  current epoch, and for those the contract is exact.
- Concurrency: none. The process handles one message at a time.

=== FILE: dispatch.dfy ===
/**
 The aggregator's message handlers: one inbound message at a time, each handler takes the
 store and the open WebSocket channel and returns their new values, the pushes and chain
 calls it made (in order), and its `Result`. Logging and state persistence are not effects
 here; the chain call's answer is the `chainAccepts` parameter.
 */
module Dispatch {
  import opened Wrappers
  import opened Epochs
  import opened Messages

  /** The terminal commands that have an effect besides logging. */
  const RequestAggregateProofs: string := "request_aggregate_proofs"
  const InsertDummyProofs: string := "insert_dummy_proofs"
  const SendToChain: string := "send_to_chain"

  // ---------------------------------------------------------------------------
  // Predicates used by the contracts
  // ---------------------------------------------------------------------------

  /** Epochs before the current one of `s` keep their entries in `s'`. */
  ghost predicate ClosedEpochsKept<P, K>(s: State<P, K>, s': State<P, K>)
  {
    forall e :: e in s.epochHistory && e < s.currentEpoch ==>
      e in s'.epochHistory && s'.epochHistory[e] == s.epochHistory[e]
  }

  /**
   What holds in every state reached within one lifetime started from the default state:
   the history is exactly `0..currentEpoch`, and the current epoch has no aggregated proof
   yet. A restart from a saved snapshot can break it (see `Runs.ResumeAfterAggregation`).
   */
  ghost predicate Consistent<P, K>(s: State<P, K>)
  {
    && WellFormed(s)
    && s.currentEpoch in s.epochHistory
    && s.epochHistory[s.currentEpoch].currentAggregatedProof == None
  }

  /**
   How one message may move the store: by zero or one epoch, leaving closed epochs alone,
   and keeping `Consistent`.
   */
  ghost predicate Advances<P, K>(s: State<P, K>, s': State<P, K>)
  {
    && (s'.currentEpoch == s.currentEpoch || s'.currentEpoch == s.currentEpoch + 1)
    && ClosedEpochsKept(s, s')
    && (Consistent(s) ==> Consistent(s'))
  }

  /** No call to the chain among `out`. */
  ghost predicate NoChainCall<P, K>(out: seq<Push<P, K>>)
  {
    forall i :: 0 <= i < |out| ==> !out[i].ChainCall?
  }

  /** `out` is exactly one binary push, on `channel`, of the current batch of `s`. */
  ghost predicate PushesCurrentBatch<P, K>(out: seq<Push<P, K>>, channel: ChannelId, s: State<P, K>)
  {
    && |out| == 1
    && out[0].BatchPush?
    && out[0].channel == channel
    && IsCurrentBatch(out[0].batch, s)
    && |out[0].batch| == (if s.currentEpoch in s.epochHistory then |s.epochHistory[s.currentEpoch].proofsByKinodeId| else 0)
  }

  /** The timer process, `timer:distro:sys`. */
  predicate IsTimer(p: ProcessId)
  {
    ProcessIdString(p) == TimerAddress
  }

  /** The HTTP server process, `http_server:distro:sys` (on whichever node). */
  predicate IsHttpServer(p: ProcessId)
  {
    ProcessIdString(p) == HttpServerAddress
  }

  /**
   The effect of a timer response: an undecodable context is an error; no context, or no
   open channel, is a no-op; otherwise the current batch is pushed on the channel and the
   store moves to the next epoch, in that order.
   */
  ghost predicate TimerEffect<P, K>(context: Option<Decoded<TimerType>>, w: World<P, K>,
                                    w': World<P, K>, out: seq<Push<P, K>>, res: Outcome)
  {
    if context == Some(Malformed) then
      w' == w && out == [] && res == Failed(MalformedTimerContext)
    else if context.None? || w.channel.None? then
      w' == w && out == [] && res == Done
    else
      && w'.state == EpochNext(w.state)
      && w'.channel == w.channel
      && PushesCurrentBatch(out, w.channel.value, w.state)
      && res == Done
  }

  /**
   The effect of a terminal command: the store and channel never change. A body that is not
   UTF-8 is an error. With an open channel, `request_aggregate_proofs` pushes the current
   batch (without advancing the epoch) and `insert_dummy_proofs` asks the aggregation service
   for dummy proofs; without one they do nothing. `send_to_chain` calls the chain only if the
   current epoch has an aggregated proof and the chain caller exists, and reports the call's
   failure. Every other command only logs.
   */
  ghost predicate TerminalEffect<P, K>(host: Host, text: Decoded<string>, w: World<P, K>, chainAccepts: bool,
                                       w': World<P, K>, out: seq<Push<P, K>>, res: Outcome)
  {
    && w' == w
    && match text
       case Malformed => out == [] && res == Failed(InvalidUtf8)
       case Parsed(command) =>
         if command == RequestAggregateProofs then
           res == Done && (if w.channel.None? then out == [] else PushesCurrentBatch(out, w.channel.value, w.state))
         else if command == InsertDummyProofs then
           res == Done && out == (if w.channel.None? then [] else [TextPush(w.channel.value, InsertProofsToken)])
         else if command == SendToChain then
           match GetAggregatedProof(w.state)
           case None => out == [] && res == Done
           case Some(p) =>
             if !host.ethCallerPresent then out == [] && res == Failed(NoEthCaller)
             else out == [ChainCall(p)] && res == (if chainAccepts then Done else Failed(ChainCallFailed))
         else
           out == [] && res == Done
  }

  /**
   The effect of a peer's request: a body that decodes as a proof submission is exactly one
   `add_proof` under the node id the body names; any other body is an error. No pushes.
   */
  ghost predicate SubmissionEffect<P, K>(body: Body<P, K>, w: World<P, K>,
                                         w': World<P, K>, out: seq<Push<P, K>>, res: Outcome)
  {
    && out == []
    && match body.asSubmission
       case Parsed(req) => w' == World(AddProof(w.state, req.source, req.input).0, w.channel) && res == Done
       case Malformed => w' == w && res == Failed(NotProofSubmission)
  }

  /**
   The effect of a request, by its source: the HTTP server of another node is ignored, the
   local one is handled as an HTTP server request, the terminal package issues a terminal
   command, and anything else is a peer's request.
   */
  ghost predicate RequestEffect<P, K>(host: Host, source: Address, body: Body<P, K>, w: World<P, K>, chainAccepts: bool,
                                      w': World<P, K>, out: seq<Push<P, K>>, res: Outcome)
  {
    if IsHttpServer(source.process) then
      if source.node != host.our.node then w' == w && out == [] && res == Done
      else out == [] && (w', res) == HandleHttpServerRequest(body.asHttp, w)
    else if source.process.package == "terminal" then
      TerminalEffect(host, body.asText, w, chainAccepts, w', out, res)
    else
      SubmissionEffect(body, w, w', out, res)
  }

  // ---------------------------------------------------------------------------
  // Timer
  // ---------------------------------------------------------------------------

  /**
   `handle_timer`: with an `AggregateProofs` context and an open channel, pushes the current
   batch on the channel and only then moves to the next epoch. Without a context or without
   a channel nothing happens; an undecodable context is an error that changes nothing.
   */
  method HandleTimer<P, K>(context: Option<Decoded<TimerType>>, w: World<P, K>)
    returns (w': World<P, K>, out: seq<Push<P, K>>, res: Outcome)
    ensures TimerEffect(context, w, w', out, res)
    ensures Advances(w.state, w'.state)
  {
    match context {
      case None =>
        return w, [], Done;
      case Some(Malformed) =>
        return w, [], Failed(MalformedTimerContext);
      case Some(Parsed(AggregateProofs)) =>
        if w.channel.None? {
          return w, [], Done;
        }
        var batch := CurrentBatch(w.state);
        out := [BatchPush(w.channel.value, batch)];
        w' := w.(state := EpochNext(w.state));
        res := Done;
    }
  }

  // ---------------------------------------------------------------------------
  // HTTP server: WebSocket lifecycle and pushes from the aggregation service
  // ---------------------------------------------------------------------------

  /** Creates the current epoch as an empty entry when the history lacks it. */
  function EnsureCurrentEpoch<P, K>(s: State<P, K>): (r: State<P, K>)
    ensures r.currentEpoch == s.currentEpoch
    ensures r.epochHistory.Keys == s.epochHistory.Keys + {s.currentEpoch}
    ensures s.currentEpoch in s.epochHistory ==> r == s
    ensures s.currentEpoch !in s.epochHistory ==> r.epochHistory[s.currentEpoch] == EmptyEpoch()
    ensures OthersUnchanged(s, r, s.currentEpoch)
  {
    if s.currentEpoch in s.epochHistory then s
    else s.(epochHistory := s.epochHistory[s.currentEpoch := EmptyEpoch()])
  }

  /**
   `add_proof(id, p)` for each `p` of `proofs` in turn. By first-write-wins only the first
   proof can be stored, and only if `id` had none in the current epoch.
   */
  function AddProofs<P, K>(s: State<P, K>, id: KinodeId, proofs: seq<AggregationInput<P, K>>): (r: State<P, K>)
    ensures r.currentEpoch == s.currentEpoch
    ensures r.epochHistory.Keys == s.epochHistory.Keys
    ensures OthersUnchanged(s, r, s.currentEpoch)
    ensures s.currentEpoch !in s.epochHistory ==> r == s
    ensures s.currentEpoch in s.epochHistory ==>
      var before := s.epochHistory[s.currentEpoch];
      var after := r.epochHistory[s.currentEpoch];
      && after.currentAggregatedProof == before.currentAggregatedProof
      && (proofs == [] ==> after.proofsByKinodeId == before.proofsByKinodeId)
      && (proofs != [] ==> FirstWriteWins(before.proofsByKinodeId, after.proofsByKinodeId, id, proofs[0]))
    decreases |proofs|
  {
    if proofs == [] then s
    else AddProofs(AddProof(s, id, proofs[0]).0, id, proofs[1..])
  }

  /** Offering any number of proofs under an id that already holds one changes nothing. */
  lemma {:induction false} AddProofsOfPresentId<P, K>(s: State<P, K>, id: KinodeId, proofs: seq<AggregationInput<P, K>>)
    requires s.currentEpoch in s.epochHistory ==> id in s.epochHistory[s.currentEpoch].proofsByKinodeId
    ensures AddProofs(s, id, proofs) == s
    decreases |proofs|
  {
    if proofs != [] {
      AddProofOfPresentId(s, id, proofs[0]);
      AddProofsOfPresentId(s, id, proofs[1..]);
    }
  }

  /**
   A list of proofs under one id stores what its first element alone would: every later
   element meets the id already filed and is dropped.
   */
  lemma {:induction false} AddProofsIsFirstAddProof<P, K>(s: State<P, K>, id: KinodeId, proofs: seq<AggregationInput<P, K>>)
    requires proofs != []
    ensures AddProofs(s, id, proofs) == AddProof(s, id, proofs[0]).0
  {
  }

  /**
   `proof` filed on the epoch `c` current in `s`, then the epoch advanced: `c + 1` is a fresh
   empty epoch, `c` keeps its proofs and now holds `proof` (if `c` existed), nothing else changes.
   */
  ghost predicate AggregationFiled<P, K>(s: State<P, K>, r: State<P, K>, proof: P)
  {
    var c := s.currentEpoch;
    && r.currentEpoch == c + 1
    && r.epochHistory.Keys == s.epochHistory.Keys + {c + 1}
    && r.epochHistory[c + 1] == EmptyEpoch()
    && (c in s.epochHistory ==>
          && r.epochHistory[c].currentAggregatedProof == Some(proof)
          && r.epochHistory[c].proofsByKinodeId == s.epochHistory[c].proofsByKinodeId)
    && forall e :: e in s.epochHistory && e != c && e != c + 1 ==> r.epochHistory[e] == s.epochHistory[e]
  }

  /**
   `proofs` offered one by one under `fake.dev` to the current epoch of `s`, created empty if
   missing: the epoch does not move, only the first proof can be stored, and only when
   `fake.dev` had none; the aggregated proof and the other epochs are kept.
   */
  ghost predicate DummiesFiled<P, K>(s: State<P, K>, r: State<P, K>, proofs: seq<AggregationInput<P, K>>)
  {
    var c := s.currentEpoch;
    var before := GetEpochState(s, c).GetOr(EmptyEpoch());
    && r.currentEpoch == c
    && r.epochHistory.Keys == s.epochHistory.Keys + {c}
    && r.epochHistory[c].currentAggregatedProof == before.currentAggregatedProof
    && (proofs == [] ==> r.epochHistory[c].proofsByKinodeId == before.proofsByKinodeId)
    && (proofs != [] ==> FirstWriteWins(before.proofsByKinodeId, r.epochHistory[c].proofsByKinodeId, DummyKinodeId, proofs[0]))
    && OthersUnchanged(s, r, c)
  }

  /**
   A blob pushed by the aggregation service. An aggregated proof is filed on the epoch that
   is current when it arrives, after which the epoch advances; dummy proofs go into the
   current epoch (created if missing) under the one id `fake.dev`. A missing or undecodable
   blob changes nothing.
   */
  function HandleWsPush<P, K>(s: State<P, K>, blob: Option<Decoded<WsMessage<P, K>>>): (r: State<P, K>)
    ensures blob.None? || blob == Some(Malformed) ==> r == s
    ensures blob.Some? && blob.value.Parsed? && blob.value.value.Aggregation? ==>
      AggregationFiled(s, r, blob.value.value.proof)
    ensures blob.Some? && blob.value.Parsed? && blob.value.value.DummyProof? ==>
      DummiesFiled(s, r, blob.value.value.proofs)
    ensures Advances(s, r)
  {
    match blob
    case None => s
    case Some(Malformed) => s
    case Some(Parsed(Aggregation(proof))) => EpochNext(SetAggregatedProof(s, proof))
    case Some(Parsed(DummyProof(proofs))) => AddProofs(EnsureCurrentEpoch(s), DummyKinodeId, proofs)
  }

  /**
   `handle_http_server_request`: a WebSocket open records its channel, a close forgets the
   channel (whichever channel closed), a push is applied to the store, any other request is
   ignored, and an undecodable request is an error that changes nothing. No pushes are made.
   */
  function HandleHttpServerRequest<P, K>(req: Decoded<HttpServerRequest<P, K>>, w: World<P, K>): (r: (World<P, K>, Outcome))
    ensures req.Malformed? ==> r == (w, Failed(MalformedHttpRequest))
    ensures req.Parsed? ==> r.1 == Done
    ensures req.Parsed? && req.value.WebSocketOpen? ==> r.0 == World(w.state, Some(req.value.channelId))
    ensures req.Parsed? && req.value.WebSocketClose? ==> r.0 == World(w.state, None)
    ensures req.Parsed? && req.value.OtherHttp? ==> r.0 == w
    ensures req.Parsed? && req.value.WebSocketPush? ==>
      r.0.channel == w.channel && r.0.state == HandleWsPush(w.state, req.value.blob)
    ensures Advances(w.state, r.0.state)
  {
    match req
    case Malformed => (w, Failed(MalformedHttpRequest))
    case Parsed(WebSocketOpen(id)) => (w.(channel := Some(id)), Done)
    case Parsed(WebSocketClose(_)) => (w.(channel := None), Done)
    case Parsed(WebSocketPush(_, blob)) => (w.(state := HandleWsPush(w.state, blob)), Done)
    case Parsed(OtherHttp) => (w, Done)
  }

  // ---------------------------------------------------------------------------
  // Terminal commands and peer requests
  // ---------------------------------------------------------------------------

  /** `handle_terminal_debug`, with `handle_insert_dummy_proofs` and `send_to_chain` inlined. */
  method HandleTerminalDebug<P, K>(host: Host, text: Decoded<string>, w: World<P, K>, chainAccepts: bool)
    returns (w': World<P, K>, out: seq<Push<P, K>>, res: Outcome)
    ensures TerminalEffect(host, text, w, chainAccepts, w', out, res)
    ensures Consistent(w.state) ==> NoChainCall(out)
  {
    w' := w;
    match text {
      case Malformed =>
        return w, [], Failed(InvalidUtf8);
      case Parsed(command) =>
        if command == RequestAggregateProofs {
          if w.channel.None? {
            return w, [], Done;
          }
          var batch := CurrentBatch(w.state);
          return w, [BatchPush(w.channel.value, batch)], Done;
        } else if command == InsertDummyProofs {
          if w.channel.None? {
            return w, [], Done;
          }
          return w, [TextPush(w.channel.value, InsertProofsToken)], Done;
        } else if command == SendToChain {
          match GetAggregatedProof(w.state) {
            case None =>
              return w, [], Done;
            case Some(p) =>
              if !host.ethCallerPresent {
                return w, [], Failed(NoEthCaller);
              }
              out := [ChainCall(p)];
              res := if chainAccepts then Done else Failed(ChainCallFailed);
          }
        } else {
          // print_state, current_epoch, list_epochs, print_epoch:<n> and unknown commands only log
          return w, [], Done;
        }
    }
  }

  /**
   `handle_kinode_messages`: a request from the terminal package is a terminal command;
   any other request must decode as a proof submission, which becomes exactly one
   `add_proof` under the node id the request names, or else is an error that changes nothing.
   */
  method HandleKinodeMessages<P, K>(host: Host, source: Address, body: Body<P, K>, w: World<P, K>, chainAccepts: bool)
    returns (w': World<P, K>, out: seq<Push<P, K>>, res: Outcome)
    ensures source.process.package == "terminal" ==> TerminalEffect(host, body.asText, w, chainAccepts, w', out, res)
    ensures source.process.package != "terminal" ==> SubmissionEffect(body, w, w', out, res)
    ensures Advances(w.state, w'.state)
    ensures Consistent(w.state) ==> NoChainCall(out)
  {
    if source.process.package == "terminal" {
      w', out, res := HandleTerminalDebug(host, body.asText, w, chainAccepts);
      return;
    }
    match body.asSubmission {
      case Parsed(req) =>
        w' := w.(state := AddProof(w.state, req.source, req.input).0);
        out := [];
        res := Done;
      case Malformed =>
        return w, [], Failed(NotProofSubmission);
    }
  }

  // ---------------------------------------------------------------------------
  // Routing
  // ---------------------------------------------------------------------------

  /**
   The request branch of `handle_message`: requests from the HTTP server are handled only
   when it runs on our own node and are dropped otherwise; every other request is a terminal
   command or a peer's request. Only the local HTTP server can change the channel.
   */
  method HandleRequest<P, K>(host: Host, source: Address, body: Body<P, K>, w: World<P, K>, chainAccepts: bool)
    returns (w': World<P, K>, out: seq<Push<P, K>>, res: Outcome)
    ensures RequestEffect(host, source, body, w, chainAccepts, w', out, res)
    ensures w'.channel != w.channel ==> IsHttpServer(source.process) && source.node == host.our.node
    ensures Advances(w.state, w'.state)
    ensures Consistent(w.state) ==> NoChainCall(out)
  {
    if ProcessIdString(source.process) == HttpServerAddress {
      if source.node != host.our.node {
        // a request claiming to come from the HTTP server of another node is dropped
        return w, [], Done;
      }
      var r := HandleHttpServerRequest(body.asHttp, w);
      return r.0, [], r.1;
    }
    w', out, res := HandleKinodeMessages(host, source, body, w, chainAccepts);
  }

  /**
   The response branch of `handle_message`: a response from the timer process goes to the
   timer handler, any other response is ignored. The channel never changes.
   */
  method HandleResponse<P, K>(source: Address, context: Option<Decoded<TimerType>>, w: World<P, K>)
    returns (w': World<P, K>, out: seq<Push<P, K>>, res: Outcome)
    ensures IsTimer(source.process) ==> TimerEffect(context, w, w', out, res)
    ensures !IsTimer(source.process) ==> w' == w && out == [] && res == Done
    ensures w'.channel == w.channel
    ensures Advances(w.state, w'.state)
    ensures NoChainCall(out)
  {
    if ProcessIdString(source.process) == TimerAddress {
      w', out, res := HandleTimer(context, w);
    } else {
      return w, [], Done;
    }
  }

  /**
   `handle_message`: routes one inbound message. A failed receive is an error; responses go
   through `HandleResponse` and requests through `HandleRequest`. Each message moves the
   store by at most one epoch and leaves closed epochs alone, only the local HTTP server
   changes the channel, and in a `Consistent` state no message leads to a chain call.
   */
  method HandleMessage<P, K>(host: Host, inbound: Inbound<P, K>, w: World<P, K>, chainAccepts: bool)
    returns (w': World<P, K>, out: seq<Push<P, K>>, res: Outcome)
    ensures inbound.ReceiveFailed? ==> w' == w && out == [] && res == Failed(ReceiveError)
    ensures inbound.Delivered? && inbound.message.Response? ==>
      if IsTimer(inbound.message.source.process) then TimerEffect(inbound.message.context, w, w', out, res)
      else w' == w && out == [] && res == Done
    ensures inbound.Delivered? && inbound.message.Request? ==>
      RequestEffect(host, inbound.message.source, inbound.message.body, w, chainAccepts, w', out, res)
    ensures w'.channel != w.channel ==>
      && inbound.Delivered? && inbound.message.Request?
      && IsHttpServer(inbound.message.source.process) && inbound.message.source.node == host.our.node
    ensures Advances(w.state, w'.state)
    ensures Consistent(w.state) ==> NoChainCall(out)
  {
    match inbound {
      case ReceiveFailed =>
        return w, [], Failed(ReceiveError);
      case Delivered(Response(source, context)) =>
        w', out, res := HandleResponse(source, context, w);
      case Delivered(Request(source, body)) =>
        w', out, res := HandleRequest(host, source, body, w, chainAccepts);
    }
  }
}

=== FILE: epochs.dfy ===
/**
 The epoch store of the proof aggregator: a counter `currentEpoch` and an ordered
 history mapping each epoch number to the proofs collected in it and the aggregated
 proof filed for it.

 Proofs (`P`) and verifying keys (`K`) are opaque: the store only files them and hands
 them back. Persisting the state after a mutation (`State::save`) has no effect on the
 in-memory state and is not modelled here.
 */
module Epochs {
  import opened Wrappers

  /** Identity of a submitting node. */
  type KinodeId = string

  /** A submitted proof together with its verifying key. */
  datatype AggregationInput<P, K> = AggregationInput(proof: P, vk: K)

  /** What one epoch holds: at most one proof per node id, and an optional aggregated proof. */
  datatype EpochState<P, K> = EpochState(
    proofsByKinodeId: map<KinodeId, AggregationInput<P, K>>,
    currentAggregatedProof: Option<P>)

  /** The whole store. Epoch numbers are `u64` in the source; see README for overflow. */
  datatype State<P, K> = State(currentEpoch: nat, epochHistory: map<nat, EpochState<P, K>>)

  /** An epoch with no proofs and no aggregated proof (`EpochState::default`). */
  function EmptyEpoch<P, K>(): (e: EpochState<P, K>)
    ensures forall id :: id !in e.proofsByKinodeId
    ensures e.currentAggregatedProof.None?
  {
    EpochState(map[], None)
  }

  // ---------------------------------------------------------------------------
  // Predicates used by the contracts
  // ---------------------------------------------------------------------------

  /** The history holds exactly the epochs `0..currentEpoch`, with no gaps. */
  ghost predicate WellFormed<P, K>(s: State<P, K>)
  {
    forall e: nat :: e in s.epochHistory <==> e <= s.currentEpoch
  }

  /** Every history entry other than `epoch` is the same, at the same key, in `s` and `s'`. */
  ghost predicate OthersUnchanged<P, K>(s: State<P, K>, s': State<P, K>, epoch: nat)
  {
    forall e :: e in s.epochHistory && e != epoch ==>
      e in s'.epochHistory && s'.epochHistory[e] == s.epochHistory[e]
  }

  /**
   `after` is `before` with `input` offered under `id` on a first-write-wins basis:
   an id already present keeps its proof, a new id gets `input`, no other id changes.
   */
  ghost predicate FirstWriteWins<I>(before: map<KinodeId, I>, after: map<KinodeId, I>, id: KinodeId, input: I)
  {
    && after.Keys == before.Keys + {id}
    && after[id] == (if id in before then before[id] else input)
    && forall k :: k in before && k != id ==> after[k] == before[k]
  }

  /**
   `ids` lists every key of `m` exactly once: as many distinct entries as `m` has keys,
   each of them a key of `m`.
   */
  ghost predicate Enumerates<V>(ids: seq<KinodeId>, m: map<KinodeId, V>)
  {
    && |ids| == |m|
    && (forall i :: 0 <= i < |ids| ==> ids[i] in m)
    && (forall i, j :: 0 <= i < j < |ids| ==> ids[i] != ids[j])
  }

  /**
   `batch` is the proof map of the current epoch listed in some order: the stored proof of
   each id, one entry per id. An absent current epoch has the empty batch.
   */
  ghost predicate IsCurrentBatch<P, K>(batch: seq<AggregationInput<P, K>>, s: State<P, K>)
  {
    if s.currentEpoch in s.epochHistory then
      var proofs := s.epochHistory[s.currentEpoch].proofsByKinodeId;
      exists ids :: Enumerates(ids, proofs) && |batch| == |ids| &&
        forall i :: 0 <= i < |ids| ==> batch[i] == proofs[ids[i]]
    else
      batch == []
  }

  // ---------------------------------------------------------------------------
  // Construction and transitions
  // ---------------------------------------------------------------------------

  /** `State::default`: epoch 0 is current and is the only, empty, entry of the history. */
  function DefaultState<P, K>(): (s: State<P, K>)
    ensures s.currentEpoch == 0
    ensures s.epochHistory.Keys == {0}
    ensures s.epochHistory[0].proofsByKinodeId == map[]
    ensures s.epochHistory[0].currentAggregatedProof == None
    ensures WellFormed(s)
  {
    State(0, map[0 := EmptyEpoch()])
  }

  /**
   `epoch_next`: the counter moves up by one and the new epoch number is mapped to a
   fresh empty epoch, replacing whatever was filed under that number; the rest of the
   history is untouched.
   */
  function EpochNext<P, K>(s: State<P, K>): (r: State<P, K>)
    ensures r.currentEpoch == s.currentEpoch + 1
    ensures r.epochHistory.Keys == s.epochHistory.Keys + {r.currentEpoch}
    ensures r.epochHistory[r.currentEpoch] == EmptyEpoch()
    ensures OthersUnchanged(s, r, r.currentEpoch)
    ensures WellFormed(s) ==> WellFormed(r)
  {
    var next := s.currentEpoch + 1;
    State(next, s.epochHistory[next := EmptyEpoch()])
  }

  /**
   `add_proof`: offers `input` under `id` to the current epoch, first write wins. The flag
   says whether the current epoch exists, and is true for a duplicate id as well. Without a
   current epoch nothing changes.
   */
  function AddProof<P, K>(s: State<P, K>, id: KinodeId, input: AggregationInput<P, K>): (r: (State<P, K>, bool))
    ensures r.1 <==> s.currentEpoch in s.epochHistory
    ensures !r.1 ==> r.0 == s
    ensures r.0.currentEpoch == s.currentEpoch
    ensures r.0.epochHistory.Keys == s.epochHistory.Keys
    ensures OthersUnchanged(s, r.0, s.currentEpoch)
    ensures r.1 ==>
      var before := s.epochHistory[s.currentEpoch];
      var after := r.0.epochHistory[s.currentEpoch];
      && FirstWriteWins(before.proofsByKinodeId, after.proofsByKinodeId, id, input)
      && after.currentAggregatedProof == before.currentAggregatedProof
  {
    if s.currentEpoch in s.epochHistory then
      var e := s.epochHistory[s.currentEpoch];
      var proofs := if id in e.proofsByKinodeId then e.proofsByKinodeId else e.proofsByKinodeId[id := input];
      (State(s.currentEpoch, s.epochHistory[s.currentEpoch := e.(proofsByKinodeId := proofs)]), true)
    else
      (s, false)
  }

  /**
   `set_aggregated_proof`: records `proof` as the current epoch's aggregated proof,
   replacing any earlier one; nothing changes when the current epoch is absent.
   */
  function SetAggregatedProof<P, K>(s: State<P, K>, proof: P): (r: State<P, K>)
    ensures r.currentEpoch == s.currentEpoch
    ensures r.epochHistory.Keys == s.epochHistory.Keys
    ensures OthersUnchanged(s, r, s.currentEpoch)
    ensures s.currentEpoch !in s.epochHistory ==> r == s
    ensures s.currentEpoch in s.epochHistory ==>
      && r.epochHistory[s.currentEpoch].currentAggregatedProof == Some(proof)
      && r.epochHistory[s.currentEpoch].proofsByKinodeId == s.epochHistory[s.currentEpoch].proofsByKinodeId
  {
    if s.currentEpoch in s.epochHistory then
      var e := s.epochHistory[s.currentEpoch];
      State(s.currentEpoch, s.epochHistory[s.currentEpoch := e.(currentAggregatedProof := Some(proof))])
    else
      s
  }

  // ---------------------------------------------------------------------------
  // Lookups (none of them changes the state; an unknown key gives None or [])
  // ---------------------------------------------------------------------------

  /** `get_epoch_state`: the entry filed under `epoch`, if any. */
  function GetEpochState<P, K>(s: State<P, K>, epoch: nat): (r: Option<EpochState<P, K>>)
    ensures r.Some? <==> epoch in s.epochHistory
    ensures r.Some? ==> r.value == s.epochHistory[epoch]
  {
    if epoch in s.epochHistory then Some(s.epochHistory[epoch]) else None
  }

  /** `current_epoch_state`: the entry of the current epoch, if any. */
  function CurrentEpochState<P, K>(s: State<P, K>): (r: Option<EpochState<P, K>>)
    ensures r.Some? <==> s.currentEpoch in s.epochHistory
    ensures r.Some? ==> r.value == s.epochHistory[s.currentEpoch]
  {
    GetEpochState(s, s.currentEpoch)
  }

  /** `get_proofs_for_kinode`: the proof `id` submitted in the current epoch, if any. */
  function GetProofsForKinode<P, K>(s: State<P, K>, id: KinodeId): (r: Option<AggregationInput<P, K>>)
    ensures r.Some? <==> s.currentEpoch in s.epochHistory && id in s.epochHistory[s.currentEpoch].proofsByKinodeId
    ensures r.Some? ==> r.value == s.epochHistory[s.currentEpoch].proofsByKinodeId[id]
  {
    match CurrentEpochState(s)
    case None => None
    case Some(e) => if id in e.proofsByKinodeId then Some(e.proofsByKinodeId[id]) else None
  }

  /** `get_aggregated_proof`: the aggregated proof filed for the current epoch, if any. */
  function GetAggregatedProof<P, K>(s: State<P, K>): (r: Option<P>)
    ensures r.Some? <==>
      s.currentEpoch in s.epochHistory && s.epochHistory[s.currentEpoch].currentAggregatedProof.Some?
    ensures r.Some? ==> r == s.epochHistory[s.currentEpoch].currentAggregatedProof
  {
    match CurrentEpochState(s)
    case None => None
    case Some(e) => e.currentAggregatedProof
  }

  /**
   `get_all_kinode_ids`: the ids of the current epoch in the hash map's iteration order,
   which is unspecified, so this picks an arbitrary order. Empty when the current epoch is absent.
   */
  method GetAllKinodeIds<P, K>(s: State<P, K>) returns (ids: seq<KinodeId>)
    ensures s.currentEpoch !in s.epochHistory ==> ids == []
    ensures s.currentEpoch in s.epochHistory ==> Enumerates(ids, s.epochHistory[s.currentEpoch].proofsByKinodeId)
    ensures s.currentEpoch in s.epochHistory ==>
      forall k :: k in s.epochHistory[s.currentEpoch].proofsByKinodeId ==> k in ids
  {
    ids := [];
    if s.currentEpoch !in s.epochHistory {
      return;
    }
    var proofs := s.epochHistory[s.currentEpoch].proofsByKinodeId;
    var remaining := proofs.Keys;
    while remaining != {}
      invariant remaining <= proofs.Keys
      invariant forall i :: 0 <= i < |ids| ==> ids[i] in proofs && ids[i] !in remaining
      invariant forall k :: k in proofs ==> k in ids || k in remaining
      invariant forall i, j :: 0 <= i < j < |ids| ==> ids[i] != ids[j]
      invariant |ids| + |remaining| == |proofs.Keys|
      decreases |remaining|
    {
      var k :| k in remaining;
      ids := ids + [k];
      remaining := remaining - {k};
    }
  }

  /**
   The `filter_map` over `ids`: the current epoch's proof for each id, skipping ids that
   have none. When every id has a proof, nothing is skipped and the order is kept.
   */
  function FilterMapProofs<P, K>(s: State<P, K>, ids: seq<KinodeId>): (r: seq<AggregationInput<P, K>>)
    ensures |r| <= |ids|
    ensures s.currentEpoch !in s.epochHistory ==> r == []
    ensures (forall i :: 0 <= i < |ids| ==> GetProofsForKinode(s, ids[i]).Some?) ==>
      |r| == |ids| && forall i :: 0 <= i < |ids| ==> r[i] == GetProofsForKinode(s, ids[i]).value
  {
    if ids == [] then []
    else
      match GetProofsForKinode(s, ids[0])
      case Some(p) => [p] + FilterMapProofs(s, ids[1..])
      case None => FilterMapProofs(s, ids[1..])
  }

  /**
   The batch handed to the aggregation service: every proof of the current epoch, once,
   in the (arbitrary) id order. Its length is the number of ids in the current epoch.
   */
  method CurrentBatch<P, K>(s: State<P, K>) returns (batch: seq<AggregationInput<P, K>>)
    ensures IsCurrentBatch(batch, s)
    ensures s.currentEpoch in s.epochHistory ==> |batch| == |s.epochHistory[s.currentEpoch].proofsByKinodeId|
    ensures s.currentEpoch !in s.epochHistory ==> batch == []
  {
    var ids := GetAllKinodeIds(s);
    batch := FilterMapProofs(s, ids);
    if s.currentEpoch in s.epochHistory {
      var proofs := s.epochHistory[s.currentEpoch].proofsByKinodeId;
      assert forall i :: 0 <= i < |ids| ==> batch[i] == proofs[ids[i]];
    }
  }

  // ---------------------------------------------------------------------------
  // Properties relating several operations
  // ---------------------------------------------------------------------------

  /** `epoch_next` applied `n` times. */
  function EpochNextN<P, K>(s: State<P, K>, n: nat): State<P, K>
    decreases n
  {
    if n == 0 then s else EpochNextN(EpochNext(s), n - 1)
  }

  /** The epoch numbers `0..n`. */
  function EpochRange(n: nat): set<nat>
    decreases n
  {
    if n == 0 then {0} else EpochRange(n - 1) + {n}
  }

  /** `EpochRange(n)` holds exactly the numbers up to `n`. */
  lemma {:induction false} EpochRangeMembers(n: nat)
    ensures forall e: nat :: e in EpochRange(n) <==> e <= n
    decreases n
  {
    if n > 0 {
      EpochRangeMembers(n - 1);
    }
  }

  /** `EpochRange(n)` has `n + 1` elements. */
  lemma {:induction false} EpochRangeSize(n: nat)
    ensures |EpochRange(n)| == n + 1
    decreases n
  {
    if n > 0 {
      EpochRangeSize(n - 1);
      EpochRangeMembers(n - 1);
      assert n !in EpochRange(n - 1);
    }
  }

  /** A well-formed history has one entry per epoch `0..currentEpoch`. */
  lemma WellFormedSize<P, K>(s: State<P, K>)
    requires WellFormed(s)
    ensures s.epochHistory.Keys == EpochRange(s.currentEpoch)
    ensures |s.epochHistory| == s.currentEpoch + 1
  {
    EpochRangeMembers(s.currentEpoch);
    assert s.epochHistory.Keys == EpochRange(s.currentEpoch);
    EpochRangeSize(s.currentEpoch);
  }

  /**
   Starting from the default state, `n` epoch transitions give current epoch `n` and a
   history of exactly `n + 1` entries numbered `0..n`, all of them empty.
   */
  lemma {:induction false} EpochNextNFromDefault<P, K>(n: nat)
    ensures EpochNextN(DefaultState<P, K>(), n).currentEpoch == n
    ensures WellFormed(EpochNextN(DefaultState<P, K>(), n))
    ensures EpochNextN(DefaultState<P, K>(), n).epochHistory.Keys == EpochRange(n)
    ensures |EpochNextN(DefaultState<P, K>(), n).epochHistory| == n + 1
    ensures forall e :: e in EpochNextN(DefaultState<P, K>(), n).epochHistory ==>
      EpochNextN(DefaultState<P, K>(), n).epochHistory[e] == EmptyEpoch()
  {
    EpochNextNStep(DefaultState<P, K>(), n);
    WellFormedSize(EpochNextN(DefaultState<P, K>(), n));
  }

  /** `n` transitions from a well-formed store of empty epochs add `n` empty epochs. */
  lemma {:induction false} EpochNextNStep<P, K>(s: State<P, K>, n: nat)
    requires WellFormed(s)
    requires forall e :: e in s.epochHistory ==> s.epochHistory[e] == EmptyEpoch()
    ensures EpochNextN(s, n).currentEpoch == s.currentEpoch + n
    ensures WellFormed(EpochNextN(s, n))
    ensures forall e :: e in EpochNextN(s, n).epochHistory ==> EpochNextN(s, n).epochHistory[e] == EmptyEpoch()
    decreases n
  {
    if n > 0 {
      EpochNextNStep(EpochNext(s), n - 1);
    }
  }

  /**
   A second submission under the same id keeps the first proof, and still reports `true`.
   */
  lemma DuplicateSubmissionKeepsFirst<P, K>(s: State<P, K>, id: KinodeId, a1: AggregationInput<P, K>, a2: AggregationInput<P, K>)
    requires s.currentEpoch in s.epochHistory
    ensures var (s1, b1) := AddProof(s, id, a1);
            var (s2, b2) := AddProof(s1, id, a2);
            && b1 && b2
            && s2 == s1
            && s2.epochHistory[s.currentEpoch].proofsByKinodeId[id] ==
               (if id in s.epochHistory[s.currentEpoch].proofsByKinodeId
                then s.epochHistory[s.currentEpoch].proofsByKinodeId[id] else a1)
  {
  }

  /** Offering a proof under an id that already holds one in the current epoch changes nothing. */
  lemma AddProofOfPresentId<P, K>(s: State<P, K>, id: KinodeId, input: AggregationInput<P, K>)
    requires s.currentEpoch in s.epochHistory ==> id in s.epochHistory[s.currentEpoch].proofsByKinodeId
    ensures AddProof(s, id, input).0 == s
  {
  }

  /**
   `get_proofs_for_kinode` after `add_proof` in an existing current epoch: the id's first
   proof, which is `input` exactly when the id had none.
   */
  lemma AddThenGetProof<P, K>(s: State<P, K>, id: KinodeId, input: AggregationInput<P, K>)
    requires s.currentEpoch in s.epochHistory
    ensures GetProofsForKinode(AddProof(s, id, input).0, id) ==
      Some(GetProofsForKinode(s, id).GetOr(input))
  {
  }

  /** After `set_aggregated_proof`, `get_aggregated_proof` returns the proof just set. */
  lemma SetThenGetAggregatedProof<P, K>(s: State<P, K>, proof: P)
    requires s.currentEpoch in s.epochHistory
    ensures GetAggregatedProof(SetAggregatedProof(s, proof)) == Some(proof)
  {
  }

  /**
   Adding a proof in the current epoch never touches a closed epoch, nor its aggregated proof.
   */
  lemma AddProofKeepsClosedEpochs<P, K>(s: State<P, K>, id: KinodeId, input: AggregationInput<P, K>, e: nat)
    requires e in s.epochHistory && e < s.currentEpoch
    ensures e in AddProof(s, id, input).0.epochHistory
    ensures AddProof(s, id, input).0.epochHistory[e] == s.epochHistory[e]
  {
  }
}

=== FILE: messages.dfy ===
/**
 The values that reach the aggregator and leave it: host addresses, inbound messages
 (already decoded, or a decode failure), the messages exchanged with the aggregation
 service over the WebSocket, and the outbound pushes and chain calls the handlers make.
 */
module Messages {
  import opened Wrappers
  import opened Epochs

  /** A WebSocket channel id (`u32`). */
  type ChannelId = x: int | 0 <= x < 0x1_0000_0000

  /** The only timer kind the aggregator sets. */
  datatype TimerType = AggregateProofs

  /**
   What the aggregation service sends back over the WebSocket: the aggregated proof of a
   batch, or a list of proofs to insert as dummy submissions.
   */
  datatype WsMessage<P, K> =
    | Aggregation(proof: P)
    | DummyProof(proofs: seq<AggregationInput<P, K>>)

  /**
   A request from the host's HTTP server. A push carries the blob attached to the message
   (none, or its decoding as a `WsMessage`); every other kind of HTTP request is `OtherHttp`.
   */
  datatype HttpServerRequest<P, K> =
    | WebSocketOpen(channelId: ChannelId)
    | WebSocketClose(channelId: ChannelId)
    | WebSocketPush(channelId: ChannelId, blob: Option<Decoded<WsMessage<P, K>>>)
    | OtherHttp

  /** A peer's submission: the node id it claims and its proof. */
  datatype ProofSubmissionRequest<P, K> = ProofSubmissionRequest(source: KinodeId, input: AggregationInput<P, K>)

  /**
   A request body seen through the three decodings the handlers may apply to its bytes;
   which one is used depends on where the request came from.
   */
  datatype Body<P, K> = Body(
    asHttp: Decoded<HttpServerRequest<P, K>>,
    asText: Decoded<string>,
    asSubmission: Decoded<ProofSubmissionRequest<P, K>>)

  /** A process id `name:package:publisher`. */
  datatype ProcessId = ProcessId(processName: string, package: string, publisher: string)

  /** A process on a node. */
  datatype Address = Address(node: string, process: ProcessId)

  /** The textual form of a process id, as compared against the well-known addresses. */
  function ProcessIdString(p: ProcessId): string
  {
    p.processName + ":" + p.package + ":" + p.publisher
  }

  const HttpServerAddress: string := "http_server:distro:sys"
  const TimerAddress: string := "timer:distro:sys"

  /** The synthetic node id every dummy proof is filed under. */
  const DummyKinodeId: KinodeId := "fake.dev"

  /** The text token asking the aggregation service for dummy proofs. */
  const InsertProofsToken: string := "insert_proofs_pls"

  /** An inbound message: a request with a body, or a response with an optional timer context. */
  datatype Message<P, K> =
    | Request(source: Address, body: Body<P, K>)
    | Response(source: Address, context: Option<Decoded<TimerType>>)

  /** The result of waiting for the next message. */
  datatype Inbound<P, K> = Delivered(message: Message<P, K>) | ReceiveFailed

  /**
   An effect on the outside world: a binary batch push or a text push on a WebSocket
   channel, or a call to the on-chain verifier with an aggregated proof.
   */
  datatype Push<P, K> =
    | BatchPush(channel: ChannelId, batch: seq<AggregationInput<P, K>>)
    | TextPush(channel: ChannelId, text: string)
    | ChainCall(proof: P)

  /** Why a handler returned an error. None of them stops the event loop. */
  datatype HandlerError =
    | ReceiveError
    | MalformedTimerContext
    | MalformedHttpRequest
    | NotProofSubmission
    | InvalidUtf8
    | NoEthCaller
    | ChainCallFailed

  /** A handler's `anyhow::Result<()>`. */
  datatype Outcome = Done | Failed(error: HandlerError)

  /** What the handlers thread from one message to the next: the store and the open channel, if any. */
  datatype World<P, K> = World(state: State<P, K>, channel: Option<ChannelId>)

  /**
   The process's fixed surroundings: its own address and whether the chain caller was built.
   */
  datatype Host = Host(our: Address, ethCallerPresent: bool)
}

=== FILE: runs.dfy ===
/**
 The event loop of the aggregator: start-up, then one message after another through
 `HandleMessage`, with the handlers' errors logged and dropped. Also two concrete rounds
 that show where an aggregated proof ends up.
 */
module Runs {
  import opened Wrappers
  import opened Epochs
  import opened Messages
  import opened Dispatch

  /**
   Start-up: the saved state if one was loaded, else the default state; no channel is open.
   The default start is `Consistent`.
   */
  function Boot<P, K>(saved: Option<State<P, K>>): (w: World<P, K>)
    ensures w.channel == None
    ensures saved.Some? ==> w.state == saved.value
    ensures saved.None? ==> w.state == DefaultState() && Consistent(w.state)
  {
    World(saved.GetOr(DefaultState()), None)
  }

  /**
   `ClosedEpochsKept` composes over two steps when the epoch does not go down in the first:
   an epoch closed at `s0` is still closed at `s1`, so `s2` keeps its entry too.
   */
  lemma ClosedEpochsKeptTransitive<P, K>(s0: State<P, K>, s1: State<P, K>, s2: State<P, K>)
    requires s0.currentEpoch <= s1.currentEpoch
    requires ClosedEpochsKept(s0, s1) && ClosedEpochsKept(s1, s2)
    ensures ClosedEpochsKept(s0, s2)
  {
  }

  /**
   The event loop over `events`: the epoch never goes down and goes up by at most one per
   message, entries of epochs closed at the start are never changed, and from a `Consistent`
   state the store stays `Consistent` and no message ever leads to a chain call.
   */
  method Run<P, K>(host: Host, events: seq<Inbound<P, K>>, w: World<P, K>, chainAccepts: bool)
    returns (w': World<P, K>, out: seq<Push<P, K>>)
    ensures w.state.currentEpoch <= w'.state.currentEpoch <= w.state.currentEpoch + |events|
    ensures ClosedEpochsKept(w.state, w'.state)
    ensures Consistent(w.state) ==> Consistent(w'.state) && NoChainCall(out)
  {
    w', out := w, [];
    var i := 0;
    while i < |events|
      invariant 0 <= i <= |events|
      invariant w.state.currentEpoch <= w'.state.currentEpoch <= w.state.currentEpoch + i
      invariant ClosedEpochsKept(w.state, w'.state)
      invariant Consistent(w.state) ==> Consistent(w'.state) && NoChainCall(out)
    {
      var next, pushes, _ := HandleMessage(host, events[i], w', chainAccepts);
      ClosedEpochsKeptTransitive(w.state, w'.state, next.state);
      out := out + pushes;
      w' := next;
      i := i + 1;
    }
  }

  /**
   From a fresh start, no sequence of messages makes `send_to_chain` call the chain: the
   only writer of an aggregated proof advances the epoch right after, so the current epoch,
   which is the one `send_to_chain` reads, never has one.
   */
  method RunFromBoot<P, K>(host: Host, events: seq<Inbound<P, K>>, chainAccepts: bool)
    returns (w: World<P, K>, out: seq<Push<P, K>>)
    ensures Consistent(w.state)
    ensures w.state.currentEpoch <= |events|
    ensures NoChainCall(out)
  {
    w, out := Run(host, events, Boot(None), chainAccepts);
  }

  /**
   The timer fires with a channel open, then any messages follow. The batch pushed is the
   current epoch `c`'s, and from then on epoch `c` keeps exactly those proofs and never gets
   an aggregated proof: whatever comes back is filed on a later epoch.
   */
  method TimerThenRun<P, K>(host: Host, w: World<P, K>, events: seq<Inbound<P, K>>, chainAccepts: bool)
    returns (w': World<P, K>, out: seq<Push<P, K>>)
    requires Consistent(w.state) && w.channel.Some?
    ensures out != [] && out[0].BatchPush? && IsCurrentBatch(out[0].batch, w.state)
    ensures w.state.currentEpoch in w'.state.epochHistory
    ensures w'.state.epochHistory[w.state.currentEpoch] ==
      EpochState(w.state.epochHistory[w.state.currentEpoch].proofsByKinodeId, None)
  {
    var ev: Inbound<P, K> := TimerFired(host);
    var w1, o1, _ := HandleMessage(host, ev, w, chainAccepts);
    assert TimerEffect(ev.message.context, w, w1, o1, Done);
    var o2;
    w', o2 := Run(host, events, w1, chainAccepts);
    out := o1 + o2;
  }

  /**
   A restart after an aggregated proof arrived. `set_aggregated_proof` persists the store,
   but the `epoch_next` that follows it does not, so the last saved snapshot is the store
   with the proof filed on its current epoch. A process started from that snapshot does
   call the chain on `send_to_chain`: the invariant of `RunFromBoot` covers one lifetime
   started without a saved state, not a resumed one.
   */
  method ResumeAfterAggregation<P, K>(host: Host, s: State<P, K>, agg: P)
    returns (w: World<P, K>, out: seq<Push<P, K>>)
    requires Consistent(s) && host.ethCallerPresent
    ensures w.state == SetAggregatedProof(s, agg) && !Consistent(w.state)
    ensures out == [ChainCall(agg)]
  {
    var res: Outcome;
    w := Boot(Some(SetAggregatedProof(s, agg)));
    assert GetAggregatedProof(w.state) == Some(agg);
    w, out, res := HandleMessage(host, Terminal(host, SendToChain), w, true);
  }

  // ---------------------------------------------------------------------------
  // Concrete rounds
  // ---------------------------------------------------------------------------

  /** A request from the HTTP server on our own node. */
  function LocalHttp<P, K>(host: Host, req: HttpServerRequest<P, K>): (ev: Inbound<P, K>)
    ensures ev.Delivered? && ev.message.Request? && IsHttpServer(ev.message.source.process)
    ensures ev.message.source.node == host.our.node && ev.message.body.asHttp == Parsed(req)
  {
    Delivered(Request(Address(host.our.node, ProcessId("http_server", "distro", "sys")), Body(Parsed(req), Malformed, Malformed)))
  }

  /** A proof submission from a peer's process. */
  function Submission<P, K>(id: KinodeId, input: AggregationInput<P, K>): (ev: Inbound<P, K>)
    ensures ev.Delivered? && ev.message.Request?
    ensures !IsHttpServer(ev.message.source.process) && ev.message.source.process.package != "terminal"
    ensures ev.message.body.asSubmission == Parsed(ProofSubmissionRequest(id, input))
  {
    Delivered(Request(Address(id, ProcessId("submitter", "zkp-aggregator", "os")),
                      Body(Malformed, Malformed, Parsed(ProofSubmissionRequest(id, input)))))
  }

  /** The `AggregateProofs` timer firing. */
  function TimerFired<P, K>(host: Host): (ev: Inbound<P, K>)
    ensures ev.Delivered? && ev.message.Response? && IsTimer(ev.message.source.process)
    ensures ev.message.context == Some(Parsed(AggregateProofs))
  {
    Delivered(Response(Address(host.our.node, ProcessId("timer", "distro", "sys")), Some(Parsed(AggregateProofs))))
  }

  /** A terminal command. */
  function Terminal<P, K>(host: Host, command: string): (ev: Inbound<P, K>)
    ensures ev.Delivered? && ev.message.Request? && !IsHttpServer(ev.message.source.process)
    ensures ev.message.source.process.package == "terminal" && ev.message.body.asText == Parsed(command)
  {
    Delivered(Request(Address(host.our.node, ProcessId("terminal", "terminal", "sys")), Body(Malformed, Parsed(command), Malformed)))
  }

  /**
   The scheduled round: channel opened, proofs from `peerA` and `peerB`, the timer fires,
   the aggregated proof comes back. The batch of epoch 0 is pushed, but the result is filed
   on epoch 1 (current when it arrived) and epoch 0 never gets one; the epoch ends at 2.
   */
  method TimerRound<P, K>(host: Host, ch: ChannelId, p1: AggregationInput<P, K>, p2: AggregationInput<P, K>, agg: P)
    returns (w: World<P, K>, out: seq<Push<P, K>>)
    ensures w.channel == Some(ch)
    ensures w.state.currentEpoch == 2
    ensures w.state.epochHistory.Keys == {0, 1, 2}
    ensures w.state.epochHistory[0] == EpochState(map["peerA" := p1, "peerB" := p2], None)
    ensures w.state.epochHistory[1] == EpochState(map[], Some(agg))
    ensures out == [BatchPush(ch, [p1, p2])] || out == [BatchPush(ch, [p2, p1])]
  {
    var o5: seq<Push<P, K>>;
    var res: Outcome;
    w, out := FireTimer(host, ch, p1, p2);
    var middle := w.state;
    w, o5, res := HandleMessage(host, LocalHttp(host, WebSocketPush(ch, Some(Parsed(Aggregation(agg))))), w, true);
    assert w.state == HandleWsPush(middle, Some(Parsed(Aggregation(agg)))) && o5 == [];
    out := out + o5;
  }

  /** `OpenAndSubmitTwo`, then the aggregation timer fires: the batch of epoch 0 goes out and the epoch moves to 1. */
  method FireTimer<P, K>(host: Host, ch: ChannelId, p1: AggregationInput<P, K>, p2: AggregationInput<P, K>)
    returns (w: World<P, K>, out: seq<Push<P, K>>)
    ensures w == World(EpochNext(State(0, map[0 := EpochState(map["peerA" := p1, "peerB" := p2], None)])), Some(ch))
    ensures out == [BatchPush(ch, [p1, p2])] || out == [BatchPush(ch, [p2, p1])]
  {
    var o1, o4: seq<Push<P, K>>;
    var res: Outcome;
    w, o1 := OpenAndSubmitTwo(host, ch, p1, p2);
    var w0 := w;
    var before := w.state;
    var ev: Inbound<P, K> := TimerFired(host);
    w, o4, res := HandleMessage(host, ev, w, true);
    assert TimerEffect(ev.message.context, w0, w, o4, res);
    assert PushesCurrentBatch(o4, ch, before);
    var batch := o4[0].batch;
    assert o4 == [BatchPush(ch, batch)];
    assert before.epochHistory[0].proofsByKinodeId == map["peerA" := p1, "peerB" := p2];
    BatchOfTwo(batch, before, "peerA", p1, "peerB", p2);
    out := o1 + o4;
  }

  /**
   The operator's round: channel opened, a proof from `peerA`, `request_aggregate_proofs`,
   the aggregated proof comes back, then `send_to_chain`. Without the epoch advance of the
   timer, the result is filed on epoch 0, whose batch was pushed; the epoch then moves to 1,
   and `send_to_chain`, which reads the current epoch, finds nothing and calls nothing.
   */
  method OperatorRound<P, K>(host: Host, ch: ChannelId, p1: AggregationInput<P, K>, agg: P)
    returns (w: World<P, K>, out: seq<Push<P, K>>)
    ensures w.channel == Some(ch)
    ensures w.state.currentEpoch == 1
    ensures w.state.epochHistory.Keys == {0, 1}
    ensures w.state.epochHistory[0] == EpochState(map["peerA" := p1], Some(agg))
    ensures w.state.epochHistory[1] == EmptyEpoch()
    ensures out == [BatchPush(ch, [p1])]
  {
    var o4, o5: seq<Push<P, K>>;
    var res: Outcome;
    w, out := RequestBatch(host, ch, p1);
    var before := w.state;
    w, o4, res := HandleMessage(host, LocalHttp(host, WebSocketPush(ch, Some(Parsed(Aggregation(agg))))), w, true);
    assert w.state == HandleWsPush(before, Some(Parsed(Aggregation(agg)))) && o4 == [];
    assert GetAggregatedProof(w.state).None?;
    w, o5, res := HandleMessage(host, Terminal(host, SendToChain), w, true);
    assert o5 == [];
    out := out + o4 + o5;
  }

  /** `OpenAndSubmit`, then the operator's `request_aggregate_proofs`: the batch goes out, the store stays. */
  method RequestBatch<P, K>(host: Host, ch: ChannelId, p1: AggregationInput<P, K>)
    returns (w: World<P, K>, out: seq<Push<P, K>>)
    ensures w == World(State(0, map[0 := EpochState(map["peerA" := p1], None)]), Some(ch))
    ensures out == [BatchPush(ch, [p1])]
  {
    var o1, o3: seq<Push<P, K>>;
    var res: Outcome;
    w, o1 := OpenAndSubmit(host, ch, p1);
    var before := w.state;
    w, o3, res := HandleMessage(host, Terminal(host, RequestAggregateProofs), w, true);
    assert w.state == before && w.channel == Some(ch);
    assert o3 == [BatchPush(ch, o3[0].batch)];
    BatchOfOne(o3[0].batch, before, "peerA", p1);
    out := o1 + o3;
  }

  /** `OpenAndSubmit`, then `peerB` submits `p2`. */
  method OpenAndSubmitTwo<P, K>(host: Host, ch: ChannelId, p1: AggregationInput<P, K>, p2: AggregationInput<P, K>)
    returns (w: World<P, K>, out: seq<Push<P, K>>)
    ensures w == World(State(0, map[0 := EpochState(map["peerA" := p1, "peerB" := p2], None)]), Some(ch))
    ensures out == []
  {
    var o: seq<Push<P, K>>;
    var res: Outcome;
    w, out := OpenAndSubmit(host, ch, p1);
    w, o, res := HandleMessage(host, Submission("peerB", p2), w, true);
    assert w.state.epochHistory == map[0 := EpochState(map["peerA" := p1, "peerB" := p2], None)];
    out := out + o;
  }

  /** From a fresh start: the local HTTP server opens channel `ch`, then `peerA` submits `p1`. */
  method OpenAndSubmit<P, K>(host: Host, ch: ChannelId, p1: AggregationInput<P, K>)
    returns (w: World<P, K>, out: seq<Push<P, K>>)
    ensures w == World(State(0, map[0 := EpochState(map["peerA" := p1], None)]), Some(ch))
    ensures out == []
  {
    var o1, o2: seq<Push<P, K>>;
    var res: Outcome;
    w := Boot(None);
    w, o1, res := HandleMessage(host, LocalHttp(host, WebSocketOpen(ch)), w, true);
    assert w == World(DefaultState(), Some(ch)) && o1 == [];
    w, o2, res := HandleMessage(host, Submission("peerA", p1), w, true);
    assert w.state.epochHistory == map[0 := EpochState(map["peerA" := p1], None)];
    out := o1 + o2;
  }

  /** The batch of an epoch holding exactly two ids is their two proofs, in one order or the other. */
  lemma BatchOfTwo<P, K>(batch: seq<AggregationInput<P, K>>, s: State<P, K>,
                         a: KinodeId, pa: AggregationInput<P, K>, b: KinodeId, pb: AggregationInput<P, K>)
    requires a != b
    requires s.currentEpoch in s.epochHistory
    requires s.epochHistory[s.currentEpoch].proofsByKinodeId.Keys == {a, b}
    requires s.epochHistory[s.currentEpoch].proofsByKinodeId[a] == pa
    requires s.epochHistory[s.currentEpoch].proofsByKinodeId[b] == pb
    requires IsCurrentBatch(batch, s)
    ensures batch == [pa, pb] || batch == [pb, pa]
  {
  }

  /** The batch of an epoch holding exactly one id is that id's proof. */
  lemma BatchOfOne<P, K>(batch: seq<AggregationInput<P, K>>, s: State<P, K>, a: KinodeId, pa: AggregationInput<P, K>)
    requires s.currentEpoch in s.epochHistory
    requires s.epochHistory[s.currentEpoch].proofsByKinodeId == map[a := pa]
    requires IsCurrentBatch(batch, s)
    ensures batch == [pa]
  {
  }
}

=== FILE: wrappers.dfy ===
/** Rust's `Option`, and the result of decoding a payload. */
module Wrappers {

  /** Rust's `Option<T>`. */
  datatype Option<+T> = None | Some(value: T) {

    /** The wrapped value, or `default` when there is none (`unwrap_or`). */
    function GetOr(default: T): T
    {
      match this
      case Some(v) => v
      case None => default
    }
  }

  /** The outcome of decoding a byte payload into a `T`: the value, or a decode failure. */
  datatype Decoded<+T> = Parsed(value: T) | Malformed
}
